=== FILE: README.md ===
# hashmap.c in Dafny

A model of the hash map declared in `hashmap.h`. It is a generic table that
stores fixed-size elements and finds each one by its key. It uses open
addressing with robin-hood displacement and backward-shift deletion. The
caller supplies a hash function (with two seeds) and a compare function.

What the model contains:

- **Buckets** (`buckets.dfy`): the bucket array. A slot is `Empty` or `Full`.
  A full slot holds an element, its cached hash and its *dib* (distance from
  the home bucket, counted from 0). The module also holds the cyclic position
  helpers. Its abstraction `Content` is the multiset of stored elements.
- **RobinHood** (`robin_hood.dfy`): lookup, robin-hood insertion,
  backward-shift deletion, in-place replacement and rehashing into a table of
  another size. Each comes with a proof that it keeps the table invariant
  `Valid`, which has three parts:
  - every element is a walk of `dib` steps from its home bucket;
  - there is no gap in a probe chain;
  - keys are distinct.
- **Traversal** (`traversal.dfy`): the callback scan and the cursor iterator
  over the buckets in storage order.
- **HashMaps** (`hashmap.dfy`): the public operations `hashmap_new`,
  `hashmap_clear`, `hashmap_count`, `hashmap_oom`, `hashmap_get`,
  `hashmap_set`, `hashmap_delete`, `hashmap_probe`, `hashmap_scan` and
  `hashmap_iter`. Each is a pure function from the map to the new map plus
  the C return value. Each is specified against `Elements`, the multiset of
  stored elements.

The C compare callback is modelled as equality of a key projection
(`cfg.key`). The hash callback is a function of that key and the two seeds,
so elements that compare equal always hash equal.

Growth and shrinking:

- Before an insertion, the library doubles a map of n buckets that holds at
  least `n*3/4` elements.
- After a deletion, the library halves a map of n buckets that holds at most
  `n/10` elements, but only while `n` is above its lower capacity.
- `ThresholdsAgree` shows that these integer thresholds match the load
  factors 0.75 and 0.1 for every power-of-two bucket count of 16 or more.
- Whether the allocation for a resize succeeds is a boolean parameter.
  - A failed grow makes `hashmap_set` return NULL and sets the oom flag; the
    map is left as it was.
  - A failed shrink leaves the map at its current size.

## Model

| member | source | states |
|---|---|---|
| HashMaps.InitialCap | hashmap.h:18 | the starting bucket count is a power of two, at least the requested capacity and at least 16, is exactly 16 for a request of 0, and, above 16, less than twice the request: the least power of two not below the larger of the request and 16 |
| HashMaps.New | hashmap.h:14-38 | a new map is empty, has no oom flag, satisfies the invariant, keeps the given hash/compare configuration and has exactly `InitialCap(cap)` buckets: at least `cap`, and 16 for cap 0 |
| HashMaps.Count | hashmap.h:75-81 | the count is the number of stored elements and equals the number of distinct keys stored |
| HashMaps.Get | hashmap.h:92-99 | NULL exactly when no stored element compares equal to the query; otherwise the result is a stored element that compares equal to it |
| HashMaps.GetFinds | hashmap.h:92-99 | whenever a stored element compares equal to the query, get returns that element |
| HashMaps.Grown | hashmap.h:101-109 | the table that set inserts into has the same elements; it has twice the buckets exactly when the map was at its growth threshold, and is then below the threshold |
| HashMaps.Upsert | hashmap.h:101-106 | with room in the table, insert-or-replace returns the replaced element exactly when one with the same key was stored, and the elements become the old ones minus the replaced one plus the new one |
| HashMaps.Set | hashmap.h:83-109 | oom is set exactly when a needed grow fails, and then set returns NULL and leaves the map exactly as it was apart from the flag (same buckets, count and capacity); otherwise it returns the replaced element (NULL exactly when the key was new), the elements become old − replaced + new, the count rises by one only for a new key, and the flag is cleared |
| HashMaps.Oom | hashmap.h:83-90 | oom reads the map's out-of-memory flag; its meaning is given by the two rows that follow |
| HashMaps.OomAfterSet | hashmap.h:83-90 | after set the flag is true exactly when the map was at its growth threshold and the grow allocation failed, and false after every set that succeeds |
| HashMaps.OomKeptByDeleteAndClear | hashmap.h:83-90 | delete and clear leave the flag as the last set left it |
| HashMaps.SetThenGet | hashmap.h:92-109 | after a set that needs no growth or whose growth allocation succeeds, get with the same key returns the element just set |
| HashMaps.SetKeepsOthers | hashmap.h:92-109 | set does not change what get returns for any other key, even when it grows the table |
| HashMaps.Shrunk | hashmap.h:111-118 | the table after a deletion keeps its elements and halves exactly when it is above its lower capacity, at most a tenth full and the allocation succeeds |
| HashMaps.DeleteAt | hashmap.h:111-118 | removing a found element takes exactly that element out, lowers the count by one and halves the table only when it is above its lower capacity, at most a tenth full, and the allocation succeeds |
| HashMaps.Delete | hashmap.h:111-118 | NULL, with the map unchanged, exactly when no element compares equal; otherwise returns the equal element, removes exactly it, lowers the count by one and shrinks as above; the oom flag is untouched |
| HashMaps.DeleteThenGet | hashmap.h:92-118 | after delete, get with the deleted key returns NULL |
| HashMaps.DeleteKeepsOthers | hashmap.h:92-118 | delete does not change what get returns for any other key, even when it shrinks the table |
| HashMaps.ThresholdsAgree | hashmap.h:101-118 | `count >= n*3/4` is the same as "one more element would exceed load 0.75", and `count <= n/10` is the same as "load below 0.1", for power-of-two n ≥ 16 |
| HashMaps.Clear | hashmap.h:66-73 | clear empties the map; with update_cap the bucket count is kept and becomes the lower capacity; without it the map returns to its lower capacity |
| HashMaps.Probe | hashmap.h:120-126 | probe returns NULL exactly when the selected bucket is empty, and otherwise the stored element in that bucket |
| HashMaps.ProbeCovers | hashmap.h:120-126 | every stored element is returned by probe at some position below the bucket count |
| HashMaps.Scan | hashmap.h:128-137 | scan completes (true) exactly when the callback accepts every stored element |
| HashMaps.Iter | hashmap.h:139-150 | iter reports the end exactly when no occupied bucket is at or after the cursor; otherwise it yields the stored element of the first occupied bucket at or after the cursor and moves the cursor just past that bucket |
| HashMaps.IterAllIsDrain | hashmap.h:139-150 | calling iter until it reports the end yields the same sequence as repeated cursor steps over the buckets |
| HashMaps.IterVisitsAll | hashmap.h:139-150 | a loop that calls iter from cursor 0 to the end yields each stored element exactly once |
| Traversal.ScanFrom | hashmap.h:128-137 | scanning from bucket i is true exactly when the callback accepts every element stored from i on |
| Traversal.IterNext | hashmap.h:139-150 | one cursor step returns the first occupied bucket at or after the cursor and skips only empty buckets |
| Traversal.DrainIsItems | hashmap.h:139-150 | repeated cursor steps yield the stored elements in storage order |
| RobinHood.Find | hashmap.h:92-99 | the lookup walk only ever reports an occupied bucket whose element has the query key |
| RobinHood.FindCorrect | hashmap.h:92-99 | the probe walk from the home bucket misses exactly when no stored element has the key, and otherwise stops at the bucket holding that key |
| RobinHood.Reach | hashmap.h:101-109 | every bucket between an element's home and its position is occupied by an element displaced at least as far, so a lookup walk never stops early |
| RobinHood.Place | hashmap.h:101-109 | the robin-hood walk adds exactly the carried element and keeps the table size |
| RobinHood.PlaceValid | hashmap.h:101-109 | the robin-hood walk (take the slot, or swap with a richer element and carry it on) keeps the table valid |
| RobinHood.Insert | hashmap.h:101-109 | insertion into a table with a free bucket adds exactly the new element and keeps the table size |
| RobinHood.InsertValid | hashmap.h:101-109 | inserting an absent key keeps the table valid |
| RobinHood.Replace | hashmap.h:101-106 | overwriting the bucket that holds an equal key swaps exactly that element for the new one and keeps the table size |
| RobinHood.ReplaceValid | hashmap.h:101-106 | overwriting the bucket that holds an equal key keeps the table valid |
| RobinHood.Walk | hashmap.h:101-109 | the single probe walk of set (take an empty bucket, overwrite a match, swap with a richer resident, or step) keeps the table size; its agreement with lookup-then-insert is stated by the next three rows |
| RobinHood.AbsentAgrees | hashmap.h:101-109 | for a key not in the table, the single probe walk of set (take an empty bucket, overwrite a match, swap with a richer resident, or step) leaves the same table as robin-hood insertion |
| RobinHood.PresentFrom | hashmap.h:101-106 | a walk carrying the new element, started d steps after the home of a key stored in bucket j, steps past every bucket before j without a swap and overwrites bucket j's element |
| RobinHood.PresentAgrees | hashmap.h:101-106 | for a key stored in bucket j, the single probe walk from the home bucket overwrites exactly bucket j's element |
| HashMaps.SetIsOneWalk | hashmap.h:101-109 | the buckets a successful set leaves are exactly those the single probe walk leaves on the (possibly grown) table |
| RobinHood.Shift | hashmap.h:111-118 | shifting the displaced chain after an emptied bucket back by one keeps exactly the stored elements and the table size |
| RobinHood.ShiftValid | hashmap.h:111-118 | shifting the chain after a hole back by one keeps the table valid |
| RobinHood.Remove | hashmap.h:111-118 | removal takes exactly the element in the bucket out |
| RobinHood.RemoveValid | hashmap.h:111-118 | removal with backward shift leaves a valid table |
| RobinHood.Rehash | hashmap.h:101-118 | re-inserting the elements still to come, in storage order, into the new table adds exactly those elements and keeps the new table's size |
| RobinHood.RehashValid | hashmap.h:101-118 | re-inserting the elements in storage order with their cached hashes keeps the new table valid |
| RobinHood.Resize | hashmap.h:101-118 | resizing to any bucket count that can hold the elements gives a table of that size with exactly the same elements |
| RobinHood.ResizeValid | hashmap.h:101-118 | resizing keeps the table valid |
| RobinHood.KeyCount | hashmap.h:75-81 | in a valid table the number of elements equals the number of distinct keys |
| RobinHood.ContentOnce | hashmap.h:139-150 | each stored element occurs exactly once |
| RobinHood.ContentKeyed | hashmap.h:92-99 | two stored elements with equal keys are the same element |
| Buckets.ContentIsItems | hashmap.h:128-150 | the multiset abstraction is exactly the elements listed in storage order |

## Left out

- `hashmap_new_with_allocator` and `hashmap_set_allocator` (hashmap.h:40-57, 165-166): custom allocator plumbing. Allocation success is a boolean parameter instead.
- `hashmap_free` and the `elfree` callback (hashmap.h:59-64): freeing memory has no counterpart in a value model.
- `hashmap_sip` and `hashmap_murmur` (hashmap.h:152-163): the hash is an arbitrary function of the key and the two seeds, and no property here depends on which one is used.
- The 64-bit width of hashes and positions is not modelled: they are unbounded naturals, and a bucket is selected as the hash or position modulo the power-of-two bucket count.
- `elsize`, the scratch buffer and the pointer-aliasing rules for returned elements: the model stores and returns elements as values.
- `udata` and callback side effects: compare, hash and the scan callback are pure functions.
- Thread safety: the map is single-threaded.
- HashMaps.InitialCap: a requested capacity of 1 to 15 is raised to 16, and larger ones are rounded up to a power of two. The header only promises the default of 16 for 0.
- HashMaps.Oom: only set changes the flag, because the header ties it to the last `hashmap_set` call. Delete and clear leave it as it was (`HashMaps.OomKeptByDeleteAndClear`), so a successful delete does not clear a flag left by a failed set.
- HashMaps.Set: modelled as a lookup followed, for a new key, by a robin-hood insertion. The library does both in one probe walk, modelled as `RobinHood.Walk`. `HashMaps.SetIsOneWalk` proves that both give the same table.

=== FILE: buckets.dfy ===
/**
  The bucket store of the hash map: a fixed number of slots, each either empty
  or holding one element together with its cached hash and its distance from
  the bucket the hash designates (its "dib").

  Positions wrap around the end of the array. The cyclic helpers below are
  written with comparisons instead of `%`, so that every proof about probe
  walks stays in linear arithmetic; only `Home` selects a bucket, as the hash
  modulo the power-of-two bucket count.
*/
module Buckets {

  /** What the map is configured with at creation: the key an element is
      compared by (two elements compare equal exactly when their keys are
      equal), the hash function over keys and the two seeds passed to it. */
  datatype Config<!T, !K> = Config(key: T -> K, hash: (K, nat, nat) -> nat, seed0: nat, seed1: nat)

  function KeyHash<T, K>(cfg: Config<T, K>, k: K): nat {
    cfg.hash(k, cfg.seed0, cfg.seed1)
  }

  function HashOf<T, K>(cfg: Config<T, K>, x: T): nat {
    KeyHash(cfg, cfg.key(x))
  }

  /** `dib` counts probe steps from the home bucket, starting at 0. */
  datatype Bucket<T> = Empty | Full(item: T, hash: nat, dib: nat)

  function Home(hash: nat, n: nat): (r: nat)
    requires n > 0
    ensures r < n
  {
    hash % n
  }

  lemma HomeOfIndex(p: nat, n: nat)
    requires p < n
    ensures Home(p, n) == p
  {
  }

  /** The bucket after `p`, wrapping to 0. */
  function Next(p: nat, n: nat): (r: nat)
    requires p < n
    ensures r < n
  {
    if p + 1 == n then 0 else p + 1
  }

  /** The bucket `d` steps after `h`. */
  function Fwd(h: nat, d: nat, n: nat): (r: nat)
    requires h < n && d < n
    ensures r < n
  {
    if h + d < n then h + d else h + d - n
  }

  /** The bucket `d` steps before `p`. */
  function Back(p: nat, d: nat, n: nat): (r: nat)
    requires p < n && d < n
    ensures r < n
    ensures Fwd(r, d, n) == p
  {
    if d <= p then p - d else p + n - d
  }

  /** Distinct step counts below `n` reach distinct buckets. */
  lemma FwdInjective(h: nat, d1: nat, d2: nat, n: nat)
    requires h < n && d1 < n && d2 < n && d1 != d2
    ensures Fwd(h, d1, n) != Fwd(h, d2, n)
  {
  }

  lemma FwdNext(h: nat, d: nat, n: nat)
    requires h < n && d + 1 < n
    ensures Fwd(h, d + 1, n) == Next(Fwd(h, d, n), n)
  {
  }

  lemma BackNext(p: nat, e: nat, n: nat)
    requires p < n && 1 <= e < n
    ensures Back(Next(p, n), e, n) == Back(p, e - 1, n)
  {
  }

  ghost function Ms<T>(b: Bucket<T>): multiset<T> {
    if b.Full? then multiset{b.item} else multiset{}
  }

  function Dib<T>(b: Bucket<T>): nat {
    if b.Full? then b.dib else 0
  }

  /** The stored elements in storage (bucket) order. */
  function Items<T>(s: seq<Bucket<T>>): (r: seq<T>)
    ensures |r| == |Content(s)|
  {
    if s == [] then []
    else (if s[0].Full? then [s[0].item] else []) + Items(s[1..])
  }

  /** The abstraction of a bucket array: the multiset of its elements. */
  ghost function Content<T>(s: seq<Bucket<T>>): multiset<T> {
    if s == [] then multiset{} else Ms(s[0]) + Content(s[1..])
  }

  /** The abstraction holds exactly the elements listed in storage order. */
  lemma {:induction false} ContentIsItems<T>(s: seq<Bucket<T>>)
    ensures Content(s) == multiset(Items(s))
  {
    if s != [] {
      ContentIsItems(s[1..]);
      assert Items(s) == (if s[0].Full? then [s[0].item] else []) + Items(s[1..]);
    }
  }

  /** Sum of displacements; it strictly falls during backward-shift deletion. */
  function DibSum<T>(s: seq<Bucket<T>>): nat {
    if s == [] then 0 else Dib(s[0]) + DibSum(s[1..])
  }

  function EmptyBuckets<T>(n: nat): (r: seq<Bucket<T>>)
    ensures |r| == n
    ensures forall p :: 0 <= p < n ==> r[p].Empty?
  {
    seq(n, _ => Empty)
  }

  lemma {:induction false} EmptyHasNoContent<T>(s: seq<Bucket<T>>)
    requires forall p :: 0 <= p < |s| ==> s[p].Empty?
    ensures Content(s) == multiset{}
  {
    if s != [] {
      EmptyHasNoContent(s[1..]);
    }
  }

  /** Overwriting one bucket swaps that bucket's element in the abstraction. */
  lemma {:induction false} ContentUpdate<T>(s: seq<Bucket<T>>, p: nat, b: Bucket<T>)
    requires p < |s|
    ensures Content(s[p := b]) == Content(s) - Ms(s[p]) + Ms(b)
  {
    var s' := s[p := b];
    if p == 0 {
      assert s'[1..] == s[1..];
    } else {
      var t, t' := s[1..], s'[1..];
      assert t' == t[p - 1 := b];
      assert t[p - 1] == s[p];
      ContentUpdate(t, p - 1, b);
      assert Content(t') == Content(t) - Ms(s[p]) + Ms(b);
      ContentHasSlot(t, p - 1);
      MultisetShuffle(Ms(s[0]), Content(t), Ms(s[p]), Ms(b));
    }
  }

  lemma {:induction false} ContentHasSlot<T>(s: seq<Bucket<T>>, p: nat)
    requires p < |s|
    ensures Ms(s[p]) <= Content(s)
  {
    if p > 0 {
      ContentHasSlot(s[1..], p - 1);
    }
  }

  lemma MultisetShuffle<T>(a: multiset<T>, c: multiset<T>, x: multiset<T>, y: multiset<T>)
    requires x <= c
    ensures a + (c - x + y) == a + c - x + y
  {
  }

  lemma {:induction false} DibSumUpdate<T>(s: seq<Bucket<T>>, p: nat, b: Bucket<T>)
    requires p < |s|
    ensures DibSum(s[p := b]) == DibSum(s) - Dib(s[p]) + Dib(b)
  {
    if p == 0 {
      assert s[p := b][1..] == s[1..];
    } else {
      assert s[p := b][1..] == s[1..][p - 1 := b];
      DibSumUpdate(s[1..], p - 1, b);
    }
  }

  /** Every stored element sits in some occupied bucket. */
  lemma {:induction false} ItemAt<T>(s: seq<Bucket<T>>, x: T) returns (p: nat)
    requires x in Content(s)
    ensures p < |s| && s[p].Full? && s[p].item == x
  {
    if s[0].Full? && s[0].item == x {
      p := 0;
    } else {
      var q := ItemAt(s[1..], x);
      p := q + 1;
    }
  }

  /** A bucket array with fewer elements than buckets has an empty bucket. */
  lemma {:induction false} EmptySlot<T>(s: seq<Bucket<T>>) returns (p: nat)
    requires |Content(s)| < |s|
    ensures p < |s| && s[p].Empty?
  {
    if s[0].Empty? {
      p := 0;
    } else {
      var q := EmptySlot(s[1..]);
      p := q + 1;
    }
  }
}

=== FILE: hashmap.dfy ===
/**
  The public operations of the hash map: create, clear, count, the
  out-of-memory flag, get, set, delete, positional probe, scan and the cursor
  iterator.

  A map is an immutable value here; each mutating operation returns the new
  map together with what the C function returns. The C map hands out
  pointers into its storage; this model hands out the elements themselves.
  Allocation is the one outside effect that matters to the observable
  behaviour, and it enters as a boolean saying whether the allocation the
  operation attempts succeeds.

  Every operation is specified against `Elements`, the multiset of stored
  elements, which holds at most one element per key.
*/
module HashMaps {
  import opened Wrappers
  import opened Buckets
  import opened RobinHood
  import opened Traversal

  /** The capacity used when the caller asks for less. */
  const MinCap: nat := 16

  /** `cap` is the lower capacity the map shrinks back to; `oom` is the flag
      `hashmap_oom` reports. */
  datatype HashMap<!T, !K> = HashMap(cfg: Config<T, K>, cap: nat, buckets: seq<Bucket<T>>, count: nat, oom: bool)

  predicate IsPow2(n: nat)
    decreases n
  {
    n == 1 || (n >= 2 && n % 2 == 0 && IsPow2(n / 2))
  }

  /** The map grows before an insertion once it holds three quarters of its buckets. */
  function GrowAt(n: nat): nat {
    n * 3 / 4
  }

  /** The map shrinks after a deletion once it holds a tenth of its buckets. */
  function ShrinkAt(n: nat): nat {
    n / 10
  }

  lemma {:induction false} Pow2NotFive(n: nat)
    requires IsPow2(n)
    ensures n % 5 != 0
    decreases n
  {
    if n != 1 {
      Pow2NotFive(n / 2);
    }
  }

  /** The integer thresholds agree with the load factors they stand for: a map
      of `n` buckets grows before an insertion that would take it past 3/4
      full, and shrinks once it is under 1/10 full. */
  lemma ThresholdsAgree(n: nat, c: nat)
    requires IsPow2(n) && n >= MinCap
    ensures c >= GrowAt(n) <==> 4 * (c + 1) > 3 * n
    ensures c <= ShrinkAt(n) <==> 10 * c < n
  {
    GrowAgrees(n, c);
    Pow2NotFive(n);
    ShrinkAgrees(n, c);
  }

  lemma GrowAgrees(n: nat, c: nat)
    requires IsPow2(n) && n >= 4
    ensures c >= GrowAt(n) <==> 4 * (c + 1) > 3 * n
  {
    var h := n / 2;
    assert n == 2 * h && IsPow2(h) && h >= 2;
    var a := h / 2;
    assert h == 2 * a;
    assert n * 3 == 4 * (3 * a);
    assert GrowAt(n) == 3 * a;
  }

  lemma ShrinkAgrees(n: nat, c: nat)
    requires n % 5 != 0
    ensures c <= ShrinkAt(n) <==> 10 * c < n
  {
    var b := n / 10;
    assert 10 * b < n < 10 * b + 10;
  }

  ghost predicate Inv<T, K>(m: HashMap<T, K>) {
    && IsPow2(m.cap) && MinCap <= m.cap <= |m.buckets|
    && IsPow2(|m.buckets|)
    && Valid(m.cfg, m.buckets)
    && m.count == |Content(m.buckets)|
    && m.count <= GrowAt(|m.buckets|)
  }

  /** The abstraction: the stored elements. */
  ghost function Elements<T, K>(m: HashMap<T, K>): multiset<T> {
    Content(m.buckets)
  }

  /** No stored element compares equal to a query with key `k`. */
  ghost predicate Missing<T, K>(m: HashMap<T, K>, k: K) {
    forall x :: x in Elements(m) ==> m.cfg.key(x) != k
  }

  ghost function OptMs<T>(o: Option<T>): multiset<T> {
    if o.Some? then multiset{o.value} else multiset{}
  }

  /** Powers of two double up to `target`: the first one reached that is not
      below it. */
  function RoundUp(c: nat, target: nat): (r: nat)
    requires IsPow2(c)
    ensures IsPow2(r) && r >= c && r >= target
    ensures r == c || r / 2 < target
    decreases target - c
  {
    if c >= target then c else RoundUp(2 * c, target)
  }

  /** The number of buckets `hashmap_new` starts with for a requested capacity. */
  function InitialCap(cap: nat): (r: nat)
    ensures IsPow2(r) && r >= MinCap && r >= cap
    ensures cap == 0 ==> r == MinCap
    ensures r == MinCap || r / 2 < cap
  {
    assert IsPow2(2) && IsPow2(4) && IsPow2(8) && IsPow2(16);
    if cap < MinCap then MinCap else RoundUp(MinCap, cap)
  }

  function New<T, K>(cfg: Config<T, K>, cap: nat): (m: HashMap<T, K>)
    ensures Inv(m)
    ensures m.cfg == cfg && m.count == 0 && !m.oom
    ensures Elements(m) == multiset{}
    ensures m.cap == |m.buckets| && |m.buckets| >= cap
    ensures cap == 0 ==> |m.buckets| == MinCap
    ensures |m.buckets| == InitialCap(cap)
  {
    var n := InitialCap(cap);
    var s := EmptyBuckets<T>(n);
    EmptyHasNoContent(s);
    HashMap(cfg, n, s, 0, false)
  }

  /** `hashmap_count`: the number of stored elements, which is the number of
      distinct keys stored. */
  function Count<T, K>(m: HashMap<T, K>): (r: nat)
    requires Inv(m)
    ensures r == |Elements(m)|
    ensures r == |Keys(m.cfg, m.buckets)|
  {
    KeyCount(m.cfg, m.buckets);
    m.count
  }

  /** `hashmap_oom`: whether the last `Set` failed for lack of memory. */
  function Oom<T, K>(m: HashMap<T, K>): (r: bool)
    ensures r == m.oom
  {
    m.oom
  }

  /** After `Set` the flag reports exactly whether a needed grow failed. */
  lemma OomAfterSet<T, K>(m: HashMap<T, K>, x: T, allocOk: bool)
    requires Inv(m)
    ensures Oom(Set(m, x, allocOk).0) <==> m.count >= GrowAt(|m.buckets|) && !allocOk
  {
  }

  /** `Delete` and `Clear` leave the flag as the last `Set` left it. */
  lemma OomKeptByDeleteAndClear<T, K>(m: HashMap<T, K>, q: T, allocOk: bool, updateCap: bool)
    requires Inv(m)
    ensures Oom(Delete(m, q, allocOk).0) == Oom(m)
    ensures Oom(Clear(m, updateCap)) == Oom(m)
  {
  }

  /** `hashmap_get`. */
  function Get<T, K(==)>(m: HashMap<T, K>, q: T): (r: Option<T>)
    requires Inv(m)
    ensures r.None? <==> Missing(m, m.cfg.key(q))
    ensures r.Some? ==> r.value in Elements(m) && m.cfg.key(r.value) == m.cfg.key(q)
  {
    var k := m.cfg.key(q);
    FindCorrect(m.cfg, m.buckets, k);
    AbsentContent(m.cfg, m.buckets, k);
    match Find(m.cfg, m.buckets, k)
    case None => None
    case Some(j) =>
      ContentHasSlot(m.buckets, j);
      Some(m.buckets[j].item)
  }

  /** A query finds the stored element with its key, whichever that is. */
  lemma GetFinds<T, K>(m: HashMap<T, K>, q: T, x: T)
    requires Inv(m) && x in Elements(m) && m.cfg.key(x) == m.cfg.key(q)
    ensures Get(m, q) == Some(x)
  {
    var r := Get(m, q);
    ContentKeyed(m.cfg, m.buckets, x, r.value);
  }

  /** The table `hashmap_set` inserts into: the current one, or, when the map
      is at its growth threshold, one of twice as many buckets. */
  function Grown<T, K>(m: HashMap<T, K>): (r: HashMap<T, K>)
    requires Inv(m)
    ensures Inv(r) && r.cfg == m.cfg && r.cap == m.cap && r.count == m.count
    ensures Elements(r) == Elements(m)
    ensures |r.buckets| == if m.count >= GrowAt(|m.buckets|) then 2 * |m.buckets| else |m.buckets|
    ensures r.count < GrowAt(|r.buckets|)
  {
    var n := |m.buckets|;
    if m.count >= GrowAt(n) then
      ResizeValid(m.cfg, m.buckets, 2 * n);
      m.(buckets := Resize(m.buckets, 2 * n))
    else m
  }

  /** Replacing the element in bucket `j` of a map that has room. */
  function SetReplace<T, K>(g: HashMap<T, K>, j: nat, x: T): (r: (HashMap<T, K>, Option<T>))
    requires Inv(g) && j < |g.buckets| && g.buckets[j].Full?
    requires g.cfg.key(g.buckets[j].item) == g.cfg.key(x)
    ensures Inv(r.0) && r.0.cfg == g.cfg && r.0.cap == g.cap && !r.0.oom
    ensures r.1 == Some(g.buckets[j].item) && r.1.value in Elements(g)
    ensures Elements(r.0) == Elements(g) - multiset{g.buckets[j].item} + multiset{x}
    ensures r.0.count == g.count && |r.0.buckets| == |g.buckets|
  {
    ReplaceValid(g.cfg, g.buckets, j, x);
    ContentHasSlot(g.buckets, j);
    var s' := Replace(g.cfg, g.buckets, j, x);
    (g.(buckets := s', oom := false), Some(g.buckets[j].item))
  }

  /** Inserting an element with an absent key into a map below its growth threshold. */
  function SetInsert<T, K>(g: HashMap<T, K>, x: T): (r: (HashMap<T, K>, Option<T>))
    requires Inv(g) && g.count < GrowAt(|g.buckets|) && Absent(g.cfg, g.buckets, g.cfg.key(x))
    ensures Inv(r.0) && r.0.cfg == g.cfg && r.0.cap == g.cap && !r.0.oom
    ensures r.1 == None
    ensures Elements(r.0) == Elements(g) + multiset{x}
    ensures r.0.count == g.count + 1 && |r.0.buckets| == |g.buckets|
  {
    InsertValid(g.cfg, g.buckets, x);
    var s' := Insert(g.cfg, g.buckets, x);
    (g.(buckets := s', count := g.count + 1, oom := false), None)
  }

  /** Insert-or-replace into a map below its growth threshold. */
  function Upsert<T, K(==)>(g: HashMap<T, K>, x: T): (r: (HashMap<T, K>, Option<T>))
    requires Inv(g) && g.count < GrowAt(|g.buckets|)
    ensures Inv(r.0) && r.0.cfg == g.cfg && r.0.cap == g.cap && !r.0.oom
    ensures r.1.None? <==> Missing(g, g.cfg.key(x))
    ensures r.1.Some? ==> r.1.value in Elements(g) && g.cfg.key(r.1.value) == g.cfg.key(x)
    ensures Elements(r.0) == Elements(g) - OptMs(r.1) + multiset{x}
    ensures r.0.count == (if r.1.None? then g.count + 1 else g.count)
    ensures |r.0.buckets| == |g.buckets|
  {
    var k := g.cfg.key(x);
    FindCorrect(g.cfg, g.buckets, k);
    AbsentContent(g.cfg, g.buckets, k);
    match Find(g.cfg, g.buckets, k)
    case Some(j) => SetReplace(g, j, x)
    case None => SetInsert(g, x)
  }

  /** `hashmap_set`: insert `x`, or replace the stored element with its key.
      `allocOk` says whether growing the table, if needed, gets its memory. */
  function Set<T, K(==)>(m: HashMap<T, K>, x: T, allocOk: bool): (r: (HashMap<T, K>, Option<T>))
    requires Inv(m)
    ensures Inv(r.0) && r.0.cfg == m.cfg && r.0.cap == m.cap
    ensures r.0.oom <==> m.count >= GrowAt(|m.buckets|) && !allocOk
    ensures r.0.oom ==> r.1 == None && Elements(r.0) == Elements(m) && r.0.count == m.count
    ensures r.0.oom ==> r.0 == m.(oom := true)
    ensures !r.0.oom ==>
      && (r.1.None? <==> Missing(m, m.cfg.key(x)))
      && (r.1.Some? ==> r.1.value in Elements(m) && m.cfg.key(r.1.value) == m.cfg.key(x))
      && Elements(r.0) == Elements(m) - OptMs(r.1) + multiset{x}
      && r.0.count == (if r.1.None? then m.count + 1 else m.count)
      && |r.0.buckets| == (if m.count >= GrowAt(|m.buckets|) then 2 * |m.buckets| else |m.buckets|)
  {
    if m.count >= GrowAt(|m.buckets|) && !allocOk then
      (m.(oom := true), None)
    else
      Upsert(Grown(m), x)
  }

  /** The table a successful `Set` leaves is the one the library's single
      probe walk leaves: overwrite at the matching bucket, or robin-hood
      insertion when there is none. */
  lemma SetIsOneWalk<T, K>(m: HashMap<T, K>, x: T, allocOk: bool)
    requires Inv(m) && (m.count < GrowAt(|m.buckets|) || allocOk)
    ensures var g := Grown(m).buckets;
            var h := HashOf(m.cfg, x);
            Set(m, x, allocOk).0.buckets == Walk(m.cfg, g, Full(x, h, 0), Home(h, |g|), 0)
  {
    var g := Grown(m);
    var s := g.buckets;
    var h := HashOf(m.cfg, x);
    var k := m.cfg.key(x);
    FindCorrect(g.cfg, s, k);
    match Find(g.cfg, s, k)
    case Some(j) =>
      PresentAgrees(g.cfg, s, x, j);
    case None =>
      AbsentAgrees(g.cfg, s, Full(x, h, 0), Home(h, |s|), 0);
  }

  /** Removing the element in bucket `j`, then shrinking if the map is sparse. */
  function DeleteAt<T, K>(m: HashMap<T, K>, j: nat, allocOk: bool): (r: (HashMap<T, K>, Option<T>))
    requires Inv(m) && j < |m.buckets| && m.buckets[j].Full?
    ensures Inv(r.0) && r.0.cfg == m.cfg && r.0.cap == m.cap && r.0.oom == m.oom
    ensures r.1 == Some(m.buckets[j].item) && r.1.value in Elements(m)
    ensures Elements(r.0) == Elements(m) - multiset{m.buckets[j].item}
    ensures r.0.count == m.count - 1
    ensures |r.0.buckets| ==
      (if |m.buckets| > m.cap && r.0.count <= ShrinkAt(|m.buckets|) && allocOk
       then |m.buckets| / 2 else |m.buckets|)
  {
    var s := m.buckets;
    ContentHasSlot(s, j);
    RemoveValid(m.cfg, s, j);
    var m1 := m.(buckets := Remove(s, j), count := m.count - 1);
    (Shrunk(m1, allocOk), Some(s[j].item))
  }

  /** The table after a deletion: halved when it is above its lower capacity,
      at most a tenth full and the allocation succeeds; otherwise unchanged. */
  function Shrunk<T, K>(m: HashMap<T, K>, allocOk: bool): (r: HashMap<T, K>)
    requires Inv(m)
    ensures Inv(r) && r.cfg == m.cfg && r.cap == m.cap && r.oom == m.oom && r.count == m.count
    ensures Elements(r) == Elements(m)
    ensures |r.buckets| ==
      (if |m.buckets| > m.cap && m.count <= ShrinkAt(|m.buckets|) && allocOk
       then |m.buckets| / 2 else |m.buckets|)
  {
    var n := |m.buckets|;
    if n > m.cap && m.count <= ShrinkAt(n) && allocOk then
      Pow2Below(m.cap, n);
      ResizeValid(m.cfg, m.buckets, n / 2);
      m.(buckets := Resize(m.buckets, n / 2))
    else m
  }

  /** `hashmap_delete`: remove the stored element with the key of `q`, then
      halve the table if it is above its lower capacity and at most a tenth
      full. `allocOk` says whether that smaller table gets its memory; if not,
      the map keeps its buckets. */
  function Delete<T, K(==)>(m: HashMap<T, K>, q: T, allocOk: bool): (r: (HashMap<T, K>, Option<T>))
    requires Inv(m)
    ensures Inv(r.0) && r.0.cfg == m.cfg && r.0.cap == m.cap && r.0.oom == m.oom
    ensures r.1.None? <==> Missing(m, m.cfg.key(q))
    ensures r.1.None? ==> r.0 == m
    ensures r.1.Some? ==>
      && r.1.value in Elements(m) && m.cfg.key(r.1.value) == m.cfg.key(q)
      && Elements(r.0) == Elements(m) - multiset{r.1.value}
      && r.0.count == m.count - 1
      && |r.0.buckets| ==
           (if |m.buckets| > m.cap && r.0.count <= ShrinkAt(|m.buckets|) && allocOk
            then |m.buckets| / 2 else |m.buckets|)
  {
    var k := m.cfg.key(q);
    FindCorrect(m.cfg, m.buckets, k);
    AbsentContent(m.cfg, m.buckets, k);
    match Find(m.cfg, m.buckets, k)
    case None => (m, None)
    case Some(j) => DeleteAt(m, j, allocOk)
  }

  lemma {:induction false} Pow2Below(a: nat, b: nat)
    requires IsPow2(a) && IsPow2(b) && a < b
    ensures b % 2 == 0 && IsPow2(b / 2) && a <= b / 2
    decreases a
  {
    if a != 1 {
      Pow2Below(a / 2, b / 2);
    }
  }

  /** `hashmap_clear`: empty the map. With `updateCap` the lower capacity
      becomes the current bucket count and the buckets are reused; without it
      the map returns to its lower capacity. */
  function Clear<T, K>(m: HashMap<T, K>, updateCap: bool): (r: HashMap<T, K>)
    requires Inv(m)
    ensures Inv(r) && r.cfg == m.cfg && r.oom == m.oom
    ensures r.count == 0 && Elements(r) == multiset{}
    ensures updateCap ==> |r.buckets| == |m.buckets| && r.cap == |m.buckets|
    ensures !updateCap ==> |r.buckets| == m.cap && r.cap == m.cap
  {
    var n := if updateCap then |m.buckets| else m.cap;
    var s := EmptyBuckets<T>(n);
    EmptyHasNoContent(s);
    m.(cap := n, buckets := s, count := 0)
  }

  /** `hashmap_probe`: the element in the bucket the position selects, the
      position modulo the power-of-two bucket count. */
  function Probe<T, K>(m: HashMap<T, K>, position: nat): (r: Option<T>)
    requires Inv(m)
    ensures r.None? <==> m.buckets[Home(position, |m.buckets|)].Empty?
    ensures r.Some? ==> r.value in Elements(m) && r.value == m.buckets[Home(position, |m.buckets|)].item
  {
    var b := m.buckets[Home(position, |m.buckets|)];
    ContentHasSlot(m.buckets, Home(position, |m.buckets|));
    if b.Full? then Some(b.item) else None
  }

  /** Every stored element is in some bucket a probe can reach. */
  lemma ProbeCovers<T, K>(m: HashMap<T, K>, x: T) returns (position: nat)
    requires Inv(m) && x in Elements(m)
    ensures position < |m.buckets| && Probe(m, position) == Some(x)
  {
    position := ItemAt(m.buckets, x);
    HomeOfIndex(position, |m.buckets|);
  }

  /** `hashmap_scan` with a callback `f`: true exactly when `f` accepts every
      stored element. */
  function Scan<T, K>(m: HashMap<T, K>, f: T -> bool): (r: bool)
    requires Inv(m)
    ensures r <==> forall x :: x in Elements(m) ==> f(x)
  {
    assert m.buckets[0..] == m.buckets;
    ContentIsItems(m.buckets);
    ScanFrom(m.buckets, 0, f)
  }

  /** `hashmap_iter`: the next stored element at or after cursor `i`, with the
      advanced cursor; None once the buckets are exhausted. */
  function Iter<T, K>(m: HashMap<T, K>, i: nat): (r: Option<(T, nat)>)
    requires Inv(m)
    ensures r.None? <==> forall p :: i <= p < |m.buckets| ==> m.buckets[p].Empty?
    ensures r.Some? ==>
      var j := r.value.1;
      && i < j <= |m.buckets|
      && m.buckets[j - 1].Full? && m.buckets[j - 1].item == r.value.0
      && r.value.0 in Elements(m)
      && (forall p :: i <= p < j - 1 ==> m.buckets[p].Empty?)
  {
    var r := IterNext(m.buckets, i);
    if r.Some? then ContentHasSlot(m.buckets, r.value.1 - 1); r else r
  }

  /** What a caller's loop receives by calling `Iter` from cursor `i` until it
      reports the end. */
  function IterAll<T, K>(m: HashMap<T, K>, i: nat): seq<T>
    requires Inv(m)
    decreases |m.buckets| - i
  {
    match Iter(m, i)
    case None => []
    case Some((x, j)) => [x] + IterAll(m, j)
  }

  lemma {:induction false} IterAllIsDrain<T, K>(m: HashMap<T, K>, i: nat)
    requires Inv(m)
    ensures IterAll(m, i) == Drain(m.buckets, i)
    decreases |m.buckets| - i
  {
    match Iter(m, i)
    case None =>
    case Some((x, j)) =>
      IterAllIsDrain(m, j);
  }

  /** A loop that starts the cursor at 0 and calls `Iter` until it reports the
      end receives every stored element exactly once. */
  lemma IterVisitsAll<T, K>(m: HashMap<T, K>)
    requires Inv(m)
    ensures multiset(IterAll(m, 0)) == Elements(m)
    ensures forall x :: x in Elements(m) ==> multiset(IterAll(m, 0))[x] == 1
  {
    assert m.buckets[0..] == m.buckets;
    IterAllIsDrain(m, 0);
    DrainIsItems(m.buckets, 0);
    ContentIsItems(m.buckets);
    forall x | x in Elements(m)
      ensures Elements(m)[x] == 1
    {
      ContentOnce(m.cfg, m.buckets, x);
    }
  }

  /** After a `Set` that needs no allocation or gets it, a query with the same
      key finds the new element. */
  lemma SetThenGet<T, K>(m: HashMap<T, K>, x: T, allocOk: bool)
    requires Inv(m) && (m.count < GrowAt(|m.buckets|) || allocOk)
    ensures Get(Set(m, x, allocOk).0, x) == Some(x)
  {
    var r := Set(m, x, allocOk).0;
    GetFinds(r, x, x);
  }

  /** `Set` leaves what a query with any other key finds unchanged. */
  lemma SetKeepsOthers<T, K>(m: HashMap<T, K>, x: T, allocOk: bool, q: T)
    requires Inv(m) && m.cfg.key(q) != m.cfg.key(x)
    ensures Get(Set(m, x, allocOk).0, q) == Get(m, q)
  {
    var res := Set(m, x, allocOk);
    OthersKept(m, res.0, OptMs(res.1), multiset{x}, m.cfg.key(x), q);
  }

  /** A map whose elements differ from those of `m` only in elements with key
      `k` answers queries for every other key alike. */
  lemma OthersKept<T, K>(m: HashMap<T, K>, r: HashMap<T, K>, gone: multiset<T>, added: multiset<T>, k: K, q: T)
    requires Inv(m) && Inv(r) && r.cfg == m.cfg && m.cfg.key(q) != k
    requires Elements(r) == Elements(m) || Elements(r) == Elements(m) - gone + added
    requires forall y :: y in gone ==> m.cfg.key(y) == k
    requires forall y :: y in added ==> m.cfg.key(y) == k
    ensures Get(r, q) == Get(m, q)
  {
    var kq := m.cfg.key(q);
    match Get(m, q)
    case Some(y) =>
      assert y !in gone;
      assert y in Elements(r);
      GetFinds(r, q, y);
    case None =>
      forall z | z in Elements(r)
        ensures r.cfg.key(z) != kq
      {
        if z !in added {
          assert z in Elements(m);
        }
      }
  }

  /** After a `Delete`, no query with the deleted key finds anything. */
  lemma DeleteThenGet<T, K>(m: HashMap<T, K>, q: T, allocOk: bool)
    requires Inv(m)
    ensures Get(Delete(m, q, allocOk).0, q) == None
  {
    var (r, gone) := Delete(m, q, allocOk);
    if gone.Some? {
      ContentOnce(m.cfg, m.buckets, gone.value);
      forall y | y in Elements(r)
        ensures m.cfg.key(y) != m.cfg.key(q)
      {
        if m.cfg.key(y) == m.cfg.key(q) {
          ContentKeyed(m.cfg, m.buckets, y, gone.value);
          assert false;
        }
      }
    }
  }

  /** `Delete` leaves what a query with any other key finds unchanged. */
  lemma DeleteKeepsOthers<T, K>(m: HashMap<T, K>, q: T, allocOk: bool, p: T)
    requires Inv(m) && m.cfg.key(p) != m.cfg.key(q)
    ensures Get(Delete(m, q, allocOk).0, p) == Get(m, p)
  {
    var res := Delete(m, q, allocOk);
    OthersKept(m, res.0, OptMs(res.1), multiset{}, m.cfg.key(q), p);
  }
}

=== FILE: robin_hood.dfy ===
/**
  The probe controller: robin-hood open addressing over a bucket array.

  Lookup walks forward from an element's home bucket; insertion walks the same
  way and, whenever the element in hand is farther from home than the
  resident of the bucket it reaches, swaps the two and carries the resident
  onward; deletion empties the bucket and pulls each following displaced
  element one step back, so no tombstones are ever left behind.

  `Valid` is the representation invariant: every element sits `dib` steps
  after its home bucket, displacement grows by at most one from one bucket to
  the next along any run, and no two elements have the same key.
*/
module RobinHood {
  import opened Wrappers
  import opened Buckets

  /** The element in bucket `p` carries its own hash and sits `dib` steps after home. */
  ghost predicate Placed<T, K>(cfg: Config<T, K>, s: seq<Bucket<T>>, p: nat)
    requires p < |s|
  {
    s[p].Full? ==>
      && s[p].dib < |s|
      && s[p].hash == HashOf(cfg, s[p].item)
      && Fwd(Home(s[p].hash, |s|), s[p].dib, |s|) == p
  }

  /** A displaced element is preceded by an element displaced at least one step less. */
  ghost predicate Chained<T>(s: seq<Bucket<T>>, p: nat)
    requires p < |s|
  {
    var q := Next(p, |s|);
    s[q].Full? && s[q].dib > 0 ==> s[p].Full? && s[q].dib <= s[p].dib + 1
  }

  ghost predicate Distinct<T, K>(cfg: Config<T, K>, s: seq<Bucket<T>>) {
    forall p, q :: 0 <= p < |s| && 0 <= q < |s| && p != q && s[p].Full? && s[q].Full? ==>
      cfg.key(s[p].item) != cfg.key(s[q].item)
  }

  ghost predicate Valid<T, K>(cfg: Config<T, K>, s: seq<Bucket<T>>) {
    && |s| > 0
    && (forall p :: 0 <= p < |s| ==> Placed(cfg, s, p))
    && (forall p :: 0 <= p < |s| ==> Chained(s, p))
    && Distinct(cfg, s)
  }

  /** No stored element has key `k`. */
  ghost predicate Absent<T, K>(cfg: Config<T, K>, s: seq<Bucket<T>>, k: K) {
    forall p :: 0 <= p < |s| && s[p].Full? ==> cfg.key(s[p].item) != k
  }

  /** Every bucket between an element's home and its position is occupied, by an
      element displaced at least as far as that bucket is from the home. */
  lemma {:induction false} Reach<T, K>(cfg: Config<T, K>, s: seq<Bucket<T>>, j: nat, d: nat)
    requires Valid(cfg, s) && j < |s| && s[j].Full? && d <= s[j].dib
    ensures s[j].dib < |s|
    ensures var p := Fwd(Home(s[j].hash, |s|), d, |s|); s[p].Full? && s[p].dib >= d
    decreases s[j].dib - d
  {
    var n := |s|;
    assert Placed(cfg, s, j);
    var h := Home(s[j].hash, n);
    if d < s[j].dib {
      Reach(cfg, s, j, d + 1);
      var p := Fwd(h, d, n);
      FwdNext(h, d, n);
      assert Chained(s, p);
    }
  }

  /** The lookup walk from home bucket `h`, `d` steps in. It stops at an empty
      bucket, at a bucket whose cached hash and key match, or after visiting
      every bucket once. */
  function FindFrom<T, K(==)>(cfg: Config<T, K>, s: seq<Bucket<T>>, k: K, h: nat, d: nat): (r: Option<nat>)
    requires h < |s| && d <= |s|
    ensures r.Some? ==> r.value < |s| && s[r.value].Full? && cfg.key(s[r.value].item) == k
    decreases |s| - d
  {
    if d == |s| then None
    else
      var p := Fwd(h, d, |s|);
      if s[p].Empty? then None
      else if s[p].hash == KeyHash(cfg, k) && cfg.key(s[p].item) == k then Some(p)
      else FindFrom(cfg, s, k, h, d + 1)
  }

  /** The bucket holding the element with key `k`, if any. */
  function Find<T, K(==)>(cfg: Config<T, K>, s: seq<Bucket<T>>, k: K): (r: Option<nat>)
    requires |s| > 0
    ensures r.Some? ==> r.value < |s| && s[r.value].Full? && cfg.key(s[r.value].item) == k
  {
    FindFrom(cfg, s, k, Home(KeyHash(cfg, k), |s|), 0)
  }

  lemma {:induction false} FindReaches<T, K>(cfg: Config<T, K>, s: seq<Bucket<T>>, j: nat, d: nat)
    requires Valid(cfg, s) && j < |s| && s[j].Full? && d <= s[j].dib
    ensures s[j].dib < |s| && s[j].hash == KeyHash(cfg, cfg.key(s[j].item))
    ensures FindFrom(cfg, s, cfg.key(s[j].item), Home(s[j].hash, |s|), d) == Some(j)
    decreases s[j].dib - d
  {
    var n := |s|;
    var k := cfg.key(s[j].item);
    assert Placed(cfg, s, j);
    var h := Home(s[j].hash, n);
    var p := Fwd(h, d, n);
    if d < s[j].dib {
      Reach(cfg, s, j, d);
      FwdInjective(h, d, s[j].dib, n);
      assert cfg.key(s[p].item) != k;
      FindReaches(cfg, s, j, d + 1);
    }
  }

  /** Lookup finds a key exactly when it is stored, and then finds its bucket. */
  lemma FindCorrect<T, K>(cfg: Config<T, K>, s: seq<Bucket<T>>, k: K)
    requires Valid(cfg, s)
    ensures Find(cfg, s, k).None? <==> Absent(cfg, s, k)
    ensures forall j :: 0 <= j < |s| && s[j].Full? && cfg.key(s[j].item) == k ==> Find(cfg, s, k) == Some(j)
  {
    forall j | 0 <= j < |s| && s[j].Full? && cfg.key(s[j].item) == k
      ensures Find(cfg, s, k) == Some(j)
    {
      FindReaches(cfg, s, j, 0);
    }
  }

  /** The `t` buckets before `p` are occupied: the insertion walk has passed them. */
  ghost predicate FullBehind<T>(s: seq<Bucket<T>>, p: nat, t: nat)
    requires p < |s| && t < |s|
  {
    forall e :: 1 <= e <= t ==> s[Back(p, e, |s|)].Full?
  }

  /** A walk that has passed `t` occupied buckets and stands on another one
      still has room to step on, as long as some bucket is empty. */
  lemma RoomAhead<T>(s: seq<Bucket<T>>, p: nat, t: nat)
    requires p < |s| && t < |s| && s[p].Full?
    requires FullBehind(s, p, t) && |Content(s)| < |s|
    ensures t + 1 < |s|
  {
    var n := |s|;
    var z := EmptySlot(s);
    var e := if z <= p then p - z else p + n - z;
    assert 1 <= e < n && Back(p, e, n) == z;
  }

  lemma StepBehind<T>(s: seq<Bucket<T>>, s': seq<Bucket<T>>, p: nat, t: nat)
    requires |s'| == |s| && p < |s| && t + 1 < |s|
    requires FullBehind(s, p, t) && s'[p].Full?
    requires forall q :: 0 <= q < |s| && q != p ==> s'[q] == s[q]
    ensures FullBehind(s', Next(p, |s|), t + 1)
  {
    var n := |s|;
    forall e | 1 <= e <= t + 1
      ensures s'[Back(Next(p, n), e, n)].Full?
    {
      BackNext(p, e, n);
      if e > 1 {
        assert s[Back(p, e - 1, n)].Full?;
      }
    }
  }

  /** Robin-hood insertion of the element in hand, `c`, standing on bucket `p`
      after passing `t` occupied buckets. An empty bucket takes `c`; a resident
      closer to its home than `c` is swapped out and carried onward instead. */
  function Place<T>(s: seq<Bucket<T>>, c: Bucket<T>, p: nat, t: nat): (r: seq<Bucket<T>>)
    requires c.Full? && p < |s| && t < |s|
    requires FullBehind(s, p, t) && |Content(s)| < |s|
    ensures |r| == |s|
    ensures Content(r) == Content(s) + multiset{c.item}
    decreases |s| - t
  {
    if s[p].Empty? then
      PutContent(s, p, c);
      s[p := c]
    else
      RoomAhead(s, p, t);
      var n := |s|;
      if s[p].dib < c.dib then
        var s' := s[p := c];
        SwapContent(s, p, c);
        StepBehind(s, s', p, t);
        Place(s', s[p].(dib := s[p].dib + 1), Next(p, n), t + 1)
      else
        StepBehind(s, s, p, t);
        Place(s, c.(dib := c.dib + 1), Next(p, n), t + 1)
  }

  lemma PutContent<T>(s: seq<Bucket<T>>, p: nat, c: Bucket<T>)
    requires p < |s| && s[p].Empty? && c.Full?
    ensures Content(s[p := c]) == Content(s) + multiset{c.item}
  {
    ContentUpdate(s, p, c);
  }

  /** Swapping the element in hand into an occupied bucket trades one element
      of the abstraction for the other. */
  lemma SwapContent<T>(s: seq<Bucket<T>>, p: nat, c: Bucket<T>)
    requires p < |s| && s[p].Full? && c.Full?
    ensures Content(s[p := c]) + multiset{s[p].item} == Content(s) + multiset{c.item}
    ensures |Content(s[p := c])| == |Content(s)|
  {
    ContentUpdate(s, p, c);
    ContentHasSlot(s, p);
  }

  /** One step of the walk past a resident at least as displaced as `c`. */
  lemma PlaceStepUnfold<T>(s: seq<Bucket<T>>, c: Bucket<T>, p: nat, t: nat)
    requires c.Full? && p < |s| && t + 1 < |s|
    requires FullBehind(s, p, t) && |Content(s)| < |s|
    requires s[p].Full? && s[p].dib >= c.dib && FullBehind(s, Next(p, |s|), t + 1)
    ensures Place(s, c, p, t) == Place(s, c.(dib := c.dib + 1), Next(p, |s|), t + 1)
  {
  }

  /** One step of the walk that swaps `c` with a resident closer to its home. */
  lemma PlaceSwapUnfold<T>(s: seq<Bucket<T>>, c: Bucket<T>, p: nat, t: nat)
    requires c.Full? && p < |s| && t + 1 < |s|
    requires FullBehind(s, p, t) && |Content(s)| < |s|
    requires s[p].Full? && s[p].dib < c.dib
    requires FullBehind(s[p := c], Next(p, |s|), t + 1) && |Content(s[p := c])| < |s|
    ensures Place(s, c, p, t) == Place(s[p := c], s[p].(dib := s[p].dib + 1), Next(p, |s|), t + 1)
  {
  }

  /** The element in hand is where its displacement says and may stand there:
      the bucket before it holds an element displaced at most one step less. */
  ghost predicate InHand<T, K>(cfg: Config<T, K>, s: seq<Bucket<T>>, c: Bucket<T>, p: nat)
    requires p < |s|
  {
    && c.Full?
    && c.dib < |s|
    && c.hash == HashOf(cfg, c.item)
    && Fwd(Home(c.hash, |s|), c.dib, |s|) == p
    && (c.dib > 0 ==> var b := Back(p, 1, |s|); s[b].Full? && c.dib <= s[b].dib + 1)
  }

  lemma BackOne(q: nat, n: nat)
    requires q < n && Next(q, n) != q
    ensures 1 < n && Back(Next(q, n), 1, n) == q
  {
  }

  /** Dropping the element in hand into an empty bucket keeps the table valid. */
  lemma DropValid<T, K>(cfg: Config<T, K>, s: seq<Bucket<T>>, c: Bucket<T>, p: nat)
    requires Valid(cfg, s) && p < |s| && s[p].Empty?
    requires InHand(cfg, s, c, p) && Absent(cfg, s, cfg.key(c.item))
    ensures Valid(cfg, s[p := c])
  {
    var n := |s|;
    var s' := s[p := c];
    forall q | 0 <= q < n
      ensures Placed(cfg, s', q)
    {
      assert Placed(cfg, s, q);
    }
    forall q | 0 <= q < n
      ensures Chained(s', q)
    {
      assert Chained(s, q);
      if q != p && Next(q, n) == p {
        BackOne(q, n);
      }
    }
  }

  /** Swapping the element in hand with a resident closer to its home keeps the
      table valid, and leaves the resident, one step further on, in hand. */
  lemma SwapValid<T, K>(cfg: Config<T, K>, s: seq<Bucket<T>>, c: Bucket<T>, p: nat)
    requires Valid(cfg, s) && p < |s| && s[p].Full? && c.Full? && s[p].dib < c.dib
    requires InHand(cfg, s, c, p) && Absent(cfg, s, cfg.key(c.item))
    ensures Valid(cfg, s[p := c])
    ensures Absent(cfg, s[p := c], cfg.key(s[p].item))
    ensures InHand(cfg, s[p := c], s[p].(dib := s[p].dib + 1), Next(p, |s|))
  {
    var n := |s|;
    var s' := s[p := c];
    assert Placed(cfg, s, p);
    FwdNext(Home(s[p].hash, n), s[p].dib, n);
    BackOne(p, n);
    forall q | 0 <= q < n
      ensures Placed(cfg, s', q)
    {
      assert Placed(cfg, s, q);
    }
    forall q | 0 <= q < n
      ensures Chained(s', q)
    {
      assert Chained(s, q);
      if q != p && Next(q, n) == p {
        BackOne(q, n);
      }
    }
  }

  /** Stepping past a resident at least as displaced keeps `c` in hand, one
      step further from its home. */
  lemma StepInHand<T, K>(cfg: Config<T, K>, s: seq<Bucket<T>>, c: Bucket<T>, p: nat)
    requires p < |s| && InHand(cfg, s, c, p) && c.dib + 1 < |s|
    requires s[p].Full? && s[p].dib >= c.dib
    ensures InHand(cfg, s, c.(dib := c.dib + 1), Next(p, |s|))
  {
    FwdNext(Home(c.hash, |s|), c.dib, |s|);
    BackOne(p, |s|);
  }

  /** Robin-hood insertion of an element whose key is absent yields a valid table. */
  lemma {:induction false} PlaceValid<T, K>(cfg: Config<T, K>, s: seq<Bucket<T>>, c: Bucket<T>, p: nat, t: nat)
    requires Valid(cfg, s) && p < |s| && t < |s|
    requires FullBehind(s, p, t) && |Content(s)| < |s|
    requires InHand(cfg, s, c, p) && c.dib <= t && Absent(cfg, s, cfg.key(c.item))
    ensures Valid(cfg, Place(s, c, p, t))
    decreases |s| - t, 1
  {
    if s[p].Empty? {
      DropValid(cfg, s, c, p);
      assert Place(s, c, p, t) == s[p := c];
    } else if s[p].dib < c.dib {
      PlaceSwapValid(cfg, s, c, p, t);
    } else {
      PlaceStepValid(cfg, s, c, p, t);
    }
  }

  lemma {:induction false} PlaceSwapValid<T, K>(cfg: Config<T, K>, s: seq<Bucket<T>>, c: Bucket<T>, p: nat, t: nat)
    requires Valid(cfg, s) && p < |s| && t < |s|
    requires FullBehind(s, p, t) && |Content(s)| < |s|
    requires InHand(cfg, s, c, p) && c.dib <= t && Absent(cfg, s, cfg.key(c.item))
    requires s[p].Full? && s[p].dib < c.dib
    ensures Valid(cfg, Place(s, c, p, t))
    decreases |s| - t, 0
  {
    var n := |s|;
    RoomAhead(s, p, t);
    SwapContent(s, p, c);
    var s' := s[p := c];
    var y := s[p].(dib := s[p].dib + 1);
    SwapValid(cfg, s, c, p);
    StepBehind(s, s', p, t);
    PlaceSwapUnfold(s, c, p, t);
    var r := Place(s', y, Next(p, n), t + 1);
    assert Place(s, c, p, t) == r;
    PlaceValid(cfg, s', y, Next(p, n), t + 1);
    assert Valid(cfg, r);
  }

  lemma {:induction false} PlaceStepValid<T, K>(cfg: Config<T, K>, s: seq<Bucket<T>>, c: Bucket<T>, p: nat, t: nat)
    requires Valid(cfg, s) && p < |s| && t < |s|
    requires FullBehind(s, p, t) && |Content(s)| < |s|
    requires InHand(cfg, s, c, p) && c.dib <= t && Absent(cfg, s, cfg.key(c.item))
    requires s[p].Full? && s[p].dib >= c.dib
    ensures Valid(cfg, Place(s, c, p, t))
    decreases |s| - t, 0
  {
    var n := |s|;
    RoomAhead(s, p, t);
    StepBehind(s, s, p, t);
    StepInHand(cfg, s, c, p);
    PlaceStepUnfold(s, c, p, t);
    PlaceValid(cfg, s, c.(dib := c.dib + 1), Next(p, n), t + 1);
  }

  /** Backward shift from the vacated bucket `i`: while the next bucket holds a
      displaced element, move it one step back and vacate its bucket instead. */
  function Shift<T>(s: seq<Bucket<T>>, i: nat): (r: seq<Bucket<T>>)
    requires i < |s| && s[i].Empty?
    ensures |r| == |s|
    ensures Content(r) == Content(s)
    decreases DibSum(s)
  {
    var q := Next(i, |s|);
    if s[q].Empty? || s[q].dib == 0 then s
    else
      var z := s[q].(dib := s[q].dib - 1);
      var s1 := s[i := z];
      DibSumUpdate(s, i, z);
      DibSumUpdate(s1, q, Empty);
      ContentUpdate(s, i, z);
      ContentUpdate(s1, q, Empty);
      Shift(s1[q := Empty], q)
  }

  /** Deletion of the element in bucket `j`, without leaving a tombstone. */
  function Remove<T>(s: seq<Bucket<T>>, j: nat): (r: seq<Bucket<T>>)
    requires j < |s| && s[j].Full?
    ensures |r| == |s|
    ensures Content(r) == Content(s) - multiset{s[j].item}
  {
    ContentUpdate(s, j, Empty);
    Shift(s[j := Empty], j)
  }

  /** The table is valid except for the link from the vacated bucket `i` to the
      next one; `h` is the displacement of the element `i` last held, which
      bounds what may follow and is matched by what precedes. */
  ghost predicate Hole<T, K>(cfg: Config<T, K>, s: seq<Bucket<T>>, i: nat, h: nat)
    requires i < |s|
  {
    && s[i].Empty?
    && (forall p :: 0 <= p < |s| ==> Placed(cfg, s, p))
    && (forall p :: 0 <= p < |s| && p != i ==> Chained(s, p))
    && Distinct(cfg, s)
    && (var q := Next(i, |s|); s[q].Full? && s[q].dib > 0 ==> s[q].dib <= h + 1)
    && (h > 0 ==> 1 < |s| && var b := Back(i, 1, |s|); s[b].Full? && h <= s[b].dib + 1)
  }

  /** Vacating the bucket of a stored element leaves a hole as described. */
  lemma VacateHole<T, K>(cfg: Config<T, K>, s: seq<Bucket<T>>, j: nat)
    requires Valid(cfg, s) && j < |s| && s[j].Full?
    ensures Hole(cfg, s[j := Empty], j, s[j].dib)
  {
    var n := |s|;
    var s' := s[j := Empty];
    assert Placed(cfg, s, j);
    assert Chained(s, j);
    forall p | 0 <= p < n
      ensures Placed(cfg, s', p)
    {
      assert Placed(cfg, s, p);
    }
    forall p | 0 <= p < n && p != j
      ensures Chained(s', p)
    {
      assert Chained(s, p);
    }
    if s[j].dib > 0 {
      var b := Back(j, 1, n);
      BackOne(b, n);
      assert Chained(s, b);
    }
  }

  /** The next bucket's element moved one step back into the hole at `i`. */
  function Pull<T>(s: seq<Bucket<T>>, i: nat): seq<Bucket<T>>
    requires i < |s|
    requires var q := Next(i, |s|); s[q].Full? && s[q].dib > 0
  {
    var q := Next(i, |s|);
    s[i := s[q].(dib := s[q].dib - 1)][q := Empty]
  }

  lemma PullPlaced<T, K>(cfg: Config<T, K>, s: seq<Bucket<T>>, i: nat, h: nat)
    requires i < |s| && Hole(cfg, s, i, h)
    requires var q := Next(i, |s|); s[q].Full? && s[q].dib > 0
    ensures forall p :: 0 <= p < |s| ==> Placed(cfg, Pull(s, i), p)
  {
    var n := |s|;
    var q := Next(i, n);
    var s2 := Pull(s, i);
    assert Placed(cfg, s, q);
    BackOne(i, n);
    assert Fwd(Home(s[q].hash, n), s[q].dib - 1, n) == i;
    forall p | 0 <= p < n
      ensures Placed(cfg, s2, p)
    {
      assert Placed(cfg, s, p);
    }
  }

  lemma PullChained<T, K>(cfg: Config<T, K>, s: seq<Bucket<T>>, i: nat, h: nat)
    requires i < |s| && Hole(cfg, s, i, h)
    requires var q := Next(i, |s|); s[q].Full? && s[q].dib > 0
    ensures forall p :: 0 <= p < |s| && p != Next(i, |s|) ==> Chained(Pull(s, i), p)
  {
    var n := |s|;
    var q := Next(i, n);
    var s2 := Pull(s, i);
    BackOne(i, n);
    forall p | 0 <= p < n && p != q
      ensures Chained(s2, p)
    {
      if p != i && Next(p, n) == i {
        BackOne(p, n);
      } else if p != i {
        assert Chained(s, p);
      }
    }
  }

  lemma PullDistinct<T, K>(cfg: Config<T, K>, s: seq<Bucket<T>>, i: nat, h: nat)
    requires i < |s| && Hole(cfg, s, i, h)
    requires var q := Next(i, |s|); s[q].Full? && s[q].dib > 0
    ensures Distinct(cfg, Pull(s, i))
  {
    var n := |s|;
    var q := Next(i, n);
    var s2 := Pull(s, i);
    forall p1, p2 | 0 <= p1 < n && 0 <= p2 < n && p1 != p2 && s2[p1].Full? && s2[p2].Full?
      ensures cfg.key(s2[p1].item) != cfg.key(s2[p2].item)
    {
      var r1 := if p1 == i then q else p1;
      var r2 := if p2 == i then q else p2;
      assert s2[p1] == s[r1].(dib := s2[p1].dib) && s2[p2] == s[r2].(dib := s2[p2].dib);
    }
  }

  /** Moving the next displaced element back into the hole moves the hole on. */
  lemma MoveHole<T, K>(cfg: Config<T, K>, s: seq<Bucket<T>>, i: nat, h: nat)
    requires i < |s| && Hole(cfg, s, i, h)
    requires var q := Next(i, |s|); s[q].Full? && s[q].dib > 0
    ensures Hole(cfg, Pull(s, i), Next(i, |s|), s[Next(i, |s|)].dib)
  {
    var n := |s|;
    var q := Next(i, n);
    var s2 := Pull(s, i);
    PullPlaced(cfg, s, i, h);
    PullChained(cfg, s, i, h);
    PullDistinct(cfg, s, i, h);
    assert Chained(s, q);
    BackOne(q, n);
    BackOne(i, n);
    assert Hole(cfg, s2, q, s[q].dib);
  }

  /** Backward shift from a hole ends in a valid table. */
  lemma {:induction false} ShiftValid<T, K>(cfg: Config<T, K>, s: seq<Bucket<T>>, i: nat, h: nat)
    requires i < |s| && Hole(cfg, s, i, h)
    ensures Valid(cfg, Shift(s, i))
    decreases DibSum(s)
  {
    var n := |s|;
    var q := Next(i, n);
    if s[q].Empty? || s[q].dib == 0 {
      assert Shift(s, i) == s;
      forall p | 0 <= p < n
        ensures Chained(s, p)
      {
      }
    } else {
      var z := s[q].(dib := s[q].dib - 1);
      var s1 := s[i := z];
      var s2 := s1[q := Empty];
      DibSumUpdate(s, i, z);
      DibSumUpdate(s1, q, Empty);
      MoveHole(cfg, s, i, h);
      assert Shift(s, i) == Shift(s2, q);
      ShiftValid(cfg, s2, q, s[q].dib);
    }
  }

  /** Deleting a stored element keeps the table valid. */
  lemma RemoveValid<T, K>(cfg: Config<T, K>, s: seq<Bucket<T>>, j: nat)
    requires Valid(cfg, s) && j < |s| && s[j].Full?
    ensures Valid(cfg, Remove(s, j))
  {
    VacateHole(cfg, s, j);
    ShiftValid(cfg, s[j := Empty], j, s[j].dib);
  }

  /** Storing `x` over the element in bucket `j`, which has the same key. */
  function Replace<T, K>(cfg: Config<T, K>, s: seq<Bucket<T>>, j: nat, x: T): (r: seq<Bucket<T>>)
    requires j < |s| && s[j].Full? && cfg.key(x) == cfg.key(s[j].item)
    ensures |r| == |s|
    ensures Content(r) == Content(s) - multiset{s[j].item} + multiset{x}
  {
    ContentUpdate(s, j, s[j].(item := x));
    s[j := s[j].(item := x)]
  }

  lemma ReplaceValid<T, K>(cfg: Config<T, K>, s: seq<Bucket<T>>, j: nat, x: T)
    requires Valid(cfg, s) && j < |s| && s[j].Full? && cfg.key(x) == cfg.key(s[j].item)
    ensures Valid(cfg, Replace(cfg, s, j, x))
  {
    var s' := s[j := s[j].(item := x)];
    assert Replace(cfg, s, j, x) == s';
    forall p | 0 <= p < |s|
      ensures Placed(cfg, s', p) && Chained(s', p)
    {
      assert Placed(cfg, s, p) && Chained(s, p);
    }
    forall p, q | 0 <= p < |s| && 0 <= q < |s| && p != q && s'[p].Full? && s'[q].Full?
      ensures cfg.key(s'[p].item) != cfg.key(s'[q].item)
    {
      assert cfg.key(s'[p].item) == cfg.key(s[p].item);
      assert cfg.key(s'[q].item) == cfg.key(s[q].item);
    }
  }

  /** Robin-hood insertion of a new element, starting at its home bucket. */
  function Insert<T, K>(cfg: Config<T, K>, s: seq<Bucket<T>>, x: T): (r: seq<Bucket<T>>)
    requires |Content(s)| < |s|
    ensures |r| == |s|
    ensures Content(r) == Content(s) + multiset{x}
  {
    var h := HashOf(cfg, x);
    Place(s, Full(x, h, 0), Home(h, |s|), 0)
  }

  /** Inserting an element whose key is absent keeps the table valid. */
  lemma InsertValid<T, K>(cfg: Config<T, K>, s: seq<Bucket<T>>, x: T)
    requires Valid(cfg, s) && |Content(s)| < |s| && Absent(cfg, s, cfg.key(x))
    ensures Valid(cfg, Insert(cfg, s, x))
  {
    var h := HashOf(cfg, x);
    PlaceValid(cfg, s, Full(x, h, 0), Home(h, |s|), 0);
  }

  /** The single probe walk of `hashmap_set`, carrying `c` from bucket `p`
      after passing `t` occupied buckets: an empty bucket takes `c`; a bucket
      whose cached hash and key match gets `c`'s element in place, keeping its
      hash and displacement; a resident closer to its home than `c` is swapped
      out and carried on; otherwise the walk steps on. */
  function Walk<T, K(==)>(cfg: Config<T, K>, s: seq<Bucket<T>>, c: Bucket<T>, p: nat, t: nat): (r: seq<Bucket<T>>)
    requires c.Full? && p < |s| && t < |s|
    requires FullBehind(s, p, t) && |Content(s)| < |s|
    ensures |r| == |s|
    decreases |s| - t
  {
    if s[p].Empty? then s[p := c]
    else if s[p].hash == c.hash && cfg.key(s[p].item) == cfg.key(c.item) then
      s[p := s[p].(item := c.item)]
    else
      RoomAhead(s, p, t);
      var n := |s|;
      if s[p].dib < c.dib then
        var s' := s[p := c];
        SwapContent(s, p, c);
        StepBehind(s, s', p, t);
        Walk(cfg, s', s[p].(dib := s[p].dib + 1), Next(p, n), t + 1)
      else
        StepBehind(s, s, p, t);
        Walk(cfg, s, c.(dib := c.dib + 1), Next(p, n), t + 1)
  }

  /** For an absent key the single walk is the robin-hood insertion. */
  lemma {:induction false} AbsentAgrees<T, K>(cfg: Config<T, K>, s: seq<Bucket<T>>, c: Bucket<T>, p: nat, t: nat)
    requires Valid(cfg, s) && p < |s| && t < |s|
    requires FullBehind(s, p, t) && |Content(s)| < |s|
    requires InHand(cfg, s, c, p) && c.dib <= t && Absent(cfg, s, cfg.key(c.item))
    ensures Walk(cfg, s, c, p, t) == Place(s, c, p, t)
    decreases |s| - t, 1
  {
    if s[p].Empty? {
    } else if s[p].dib < c.dib {
      AbsentSwapAgrees(cfg, s, c, p, t);
    } else {
      AbsentStepAgrees(cfg, s, c, p, t);
    }
  }

  lemma {:induction false} AbsentSwapAgrees<T, K>(cfg: Config<T, K>, s: seq<Bucket<T>>, c: Bucket<T>, p: nat, t: nat)
    requires Valid(cfg, s) && p < |s| && t < |s|
    requires FullBehind(s, p, t) && |Content(s)| < |s|
    requires InHand(cfg, s, c, p) && c.dib <= t && Absent(cfg, s, cfg.key(c.item))
    requires s[p].Full? && s[p].dib < c.dib
    ensures Walk(cfg, s, c, p, t) == Place(s, c, p, t)
    decreases |s| - t, 0
  {
    var n := |s|;
    RoomAhead(s, p, t);
    SwapContent(s, p, c);
    var s' := s[p := c];
    var y := s[p].(dib := s[p].dib + 1);
    SwapValid(cfg, s, c, p);
    StepBehind(s, s', p, t);
    PlaceSwapUnfold(s, c, p, t);
    WalkSwapUnfold(cfg, s, c, p, t);
    AbsentAgrees(cfg, s', y, Next(p, n), t + 1);
  }

  lemma {:induction false} AbsentStepAgrees<T, K>(cfg: Config<T, K>, s: seq<Bucket<T>>, c: Bucket<T>, p: nat, t: nat)
    requires Valid(cfg, s) && p < |s| && t < |s|
    requires FullBehind(s, p, t) && |Content(s)| < |s|
    requires InHand(cfg, s, c, p) && c.dib <= t && Absent(cfg, s, cfg.key(c.item))
    requires s[p].Full? && s[p].dib >= c.dib
    ensures Walk(cfg, s, c, p, t) == Place(s, c, p, t)
    decreases |s| - t, 0
  {
    var n := |s|;
    RoomAhead(s, p, t);
    StepBehind(s, s, p, t);
    StepInHand(cfg, s, c, p);
    PlaceStepUnfold(s, c, p, t);
    WalkStepUnfold(cfg, s, c, p, t);
    AbsentAgrees(cfg, s, c.(dib := c.dib + 1), Next(p, n), t + 1);
  }

  lemma WalkSwapUnfold<T, K>(cfg: Config<T, K>, s: seq<Bucket<T>>, c: Bucket<T>, p: nat, t: nat)
    requires c.Full? && p < |s| && t + 1 < |s|
    requires FullBehind(s, p, t) && |Content(s)| < |s|
    requires s[p].Full? && s[p].dib < c.dib && cfg.key(s[p].item) != cfg.key(c.item)
    requires FullBehind(s[p := c], Next(p, |s|), t + 1) && |Content(s[p := c])| < |s|
    ensures Walk(cfg, s, c, p, t) == Walk(cfg, s[p := c], s[p].(dib := s[p].dib + 1), Next(p, |s|), t + 1)
  {
  }

  lemma WalkStepUnfold<T, K>(cfg: Config<T, K>, s: seq<Bucket<T>>, c: Bucket<T>, p: nat, t: nat)
    requires c.Full? && p < |s| && t + 1 < |s|
    requires FullBehind(s, p, t) && |Content(s)| < |s|
    requires s[p].Full? && s[p].dib >= c.dib && cfg.key(s[p].item) != cfg.key(c.item)
    requires FullBehind(s, Next(p, |s|), t + 1)
    ensures Walk(cfg, s, c, p, t) == Walk(cfg, s, c.(dib := c.dib + 1), Next(p, |s|), t + 1)
  {
  }

  /** For a key stored in bucket `j`, the single walk started `d` steps after
      the home bucket overwrites exactly that bucket's element. */
  lemma {:induction false} PresentFrom<T, K>(cfg: Config<T, K>, s: seq<Bucket<T>>, x: T, j: nat, d: nat)
    requires Valid(cfg, s) && |Content(s)| < |s|
    requires j < |s| && s[j].Full? && cfg.key(s[j].item) == cfg.key(x) && d <= s[j].dib
    ensures s[j].dib < |s| && s[j].hash == HashOf(cfg, x)
    ensures var p := Fwd(Home(s[j].hash, |s|), d, |s|);
            FullBehind(s, p, d) ==>
            Walk(cfg, s, Full(x, s[j].hash, d), p, d) == Replace(cfg, s, j, x)
    decreases s[j].dib - d
  {
    var n := |s|;
    assert Placed(cfg, s, j);
    var h := Home(s[j].hash, n);
    var p := Fwd(h, d, n);
    var c := Full(x, s[j].hash, d);
    if FullBehind(s, p, d) {
      if d == s[j].dib {
        assert p == j;
      } else {
        Reach(cfg, s, j, d);
        FwdInjective(h, d, s[j].dib, n);
        assert cfg.key(s[p].item) != cfg.key(x);
        FwdNext(h, d, n);
        StepBehind(s, s, p, d);
        WalkStepUnfold(cfg, s, c, p, d);
        PresentFrom(cfg, s, x, j, d + 1);
      }
    }
  }

  /** For a key stored in bucket `j`, the single walk from the home bucket
      overwrites exactly that bucket's element. */
  lemma PresentAgrees<T, K>(cfg: Config<T, K>, s: seq<Bucket<T>>, x: T, j: nat)
    requires Valid(cfg, s) && |Content(s)| < |s|
    requires j < |s| && s[j].Full? && cfg.key(s[j].item) == cfg.key(x)
    ensures var h := HashOf(cfg, x);
            Walk(cfg, s, Full(x, h, 0), Home(h, |s|), 0) == Replace(cfg, s, j, x)
  {
    PresentFrom(cfg, s, x, j, 0);
  }

  /** Re-insertion of the elements of `src` from bucket `i` on, in storage
      order, into `acc`, reusing their cached hashes. */
  function Rehash<T>(src: seq<Bucket<T>>, i: nat, acc: seq<Bucket<T>>): (r: seq<Bucket<T>>)
    requires i <= |src| && |Content(src[i..])| + |Content(acc)| <= |acc|
    ensures |r| == |acc|
    ensures Content(r) == Content(acc) + Content(src[i..])
    decreases |src| - i
  {
    if i == |src| then acc
    else
      assert src[i..][1..] == src[i + 1..];
      if src[i].Empty? then Rehash(src, i + 1, acc)
      else
        var c := Full(src[i].item, src[i].hash, 0);
        Rehash(src, i + 1, Place(acc, c, Home(src[i].hash, |acc|), 0))
  }

  /** The bucket array of `n` buckets holding the same elements as `src`. */
  function Resize<T>(src: seq<Bucket<T>>, n: nat): (r: seq<Bucket<T>>)
    requires |Content(src)| <= n
    ensures |r| == n
    ensures Content(r) == Content(src)
  {
    assert src[0..] == src;
    EmptyHasNoContent(EmptyBuckets<T>(n));
    Rehash(src, 0, EmptyBuckets(n))
  }

  /** No element already re-inserted shares a key with one still to come. */
  ghost predicate KeysApart<T, K>(cfg: Config<T, K>, acc: seq<Bucket<T>>, src: seq<Bucket<T>>, i: nat) {
    forall x, q :: x in Content(acc) && i <= q < |src| && src[q].Full? ==> cfg.key(x) != cfg.key(src[q].item)
  }

  lemma {:induction false} RehashValid<T, K>(cfg: Config<T, K>, src: seq<Bucket<T>>, i: nat, acc: seq<Bucket<T>>)
    requires Valid(cfg, src) && Valid(cfg, acc)
    requires i <= |src| && |Content(src[i..])| + |Content(acc)| <= |acc|
    requires KeysApart(cfg, acc, src, i)
    ensures Valid(cfg, Rehash(src, i, acc))
    decreases |src| - i
  {
    if i < |src| {
      assert src[i..][1..] == src[i + 1..];
      if src[i].Empty? {
        RehashValid(cfg, src, i + 1, acc);
      } else {
        var c := Full(src[i].item, src[i].hash, 0);
        var p := Home(src[i].hash, |acc|);
        assert Placed(cfg, src, i);
        forall q | 0 <= q < |acc| && acc[q].Full?
          ensures cfg.key(acc[q].item) != cfg.key(c.item)
        {
          ContentHasSlot(acc, q);
        }
        PlaceValid(cfg, acc, c, p, 0);
        var acc' := Place(acc, c, p, 0);
        assert KeysApart(cfg, acc', src, i + 1);
        RehashValid(cfg, src, i + 1, acc');
      }
    }
  }

  /** Resizing a valid table gives a valid table with the same elements. */
  lemma ResizeValid<T, K>(cfg: Config<T, K>, src: seq<Bucket<T>>, n: nat)
    requires Valid(cfg, src) && |Content(src)| <= n && n > 0
    ensures Valid(cfg, Resize(src, n))
  {
    assert src[0..] == src;
    var e := EmptyBuckets<T>(n);
    EmptyHasNoContent(e);
    RehashValid(cfg, src, 0, e);
  }

  /** A key is absent from the buckets exactly when no element of the
      abstraction has it. */
  lemma AbsentContent<T, K>(cfg: Config<T, K>, s: seq<Bucket<T>>, k: K)
    ensures Absent(cfg, s, k) <==> forall x :: x in Content(s) ==> cfg.key(x) != k
  {
    if !Absent(cfg, s, k) {
      var p :| 0 <= p < |s| && s[p].Full? && cfg.key(s[p].item) == k;
      ContentHasSlot(s, p);
    }
    forall x | x in Content(s)
      ensures Absent(cfg, s, k) ==> cfg.key(x) != k
    {
      var p := ItemAt(s, x);
    }
  }

  /** Distinct keys make the abstraction a keyed set: one element per key. */
  lemma ContentKeyed<T, K>(cfg: Config<T, K>, s: seq<Bucket<T>>, x: T, y: T)
    requires Distinct(cfg, s) && x in Content(s) && y in Content(s) && cfg.key(x) == cfg.key(y)
    ensures x == y
  {
    var p := ItemAt(s, x);
    var q := ItemAt(s, y);
  }

  /** The keys of the stored elements. */
  ghost function Keys<T, K>(cfg: Config<T, K>, s: seq<Bucket<T>>): set<K> {
    if s == [] then {}
    else (if s[0].Full? then {cfg.key(s[0].item)} else {}) + Keys(cfg, s[1..])
  }

  lemma {:induction false} KeysPresent<T, K>(cfg: Config<T, K>, s: seq<Bucket<T>>, k: K)
    ensures k in Keys(cfg, s) <==> !Absent(cfg, s, k)
  {
    if s != [] {
      KeysPresent(cfg, s[1..], k);
      if !Absent(cfg, s, k) {
        var p :| 0 <= p < |s| && s[p].Full? && cfg.key(s[p].item) == k;
        if p > 0 {
          assert s[1..][p - 1] == s[p];
        }
      }
    }
  }

  /** With distinct keys there are as many keys as stored elements. */
  lemma {:induction false} KeyCount<T, K>(cfg: Config<T, K>, s: seq<Bucket<T>>)
    requires Distinct(cfg, s)
    ensures |Keys(cfg, s)| == |Content(s)|
  {
    if s != [] {
      var t := s[1..];
      assert Distinct(cfg, t) by {
        forall p, q | 0 <= p < |t| && 0 <= q < |t| && p != q && t[p].Full? && t[q].Full?
          ensures cfg.key(t[p].item) != cfg.key(t[q].item)
        {
          assert t[p] == s[p + 1] && t[q] == s[q + 1];
        }
      }
      KeyCount(cfg, t);
      if s[0].Full? {
        KeysPresent(cfg, t, cfg.key(s[0].item));
        forall p | 0 <= p < |t| && t[p].Full?
          ensures cfg.key(t[p].item) != cfg.key(s[0].item)
        {
          assert t[p] == s[p + 1];
        }
      }
    }
  }

  /** With distinct keys every stored element is stored exactly once. */
  lemma {:induction false} ContentOnce<T, K>(cfg: Config<T, K>, s: seq<Bucket<T>>, x: T)
    requires Distinct(cfg, s) && x in Content(s)
    ensures Content(s)[x] == 1
  {
    var t := s[1..];
    assert Distinct(cfg, t) by {
      forall p, q | 0 <= p < |t| && 0 <= q < |t| && p != q && t[p].Full? && t[q].Full?
        ensures cfg.key(t[p].item) != cfg.key(t[q].item)
      {
        assert t[p] == s[p + 1] && t[q] == s[q + 1];
      }
    }
    if s[0].Full? && s[0].item == x {
      if x in Content(t) {
        var p := ItemAt(t, x);
        assert false;
      }
    } else {
      ContentOnce(cfg, t, x);
    }
  }
}

=== FILE: traversal.dfy ===
/**
  Traversal of a bucket array in storage order: the callback-driven scan and
  the cursor-driven iterator. Both visit the occupied buckets from index 0
  upward; neither follows insertion order.
*/
module Traversal {
  import opened Wrappers
  import opened Buckets

  lemma ItemsFrom<T>(s: seq<Bucket<T>>, i: nat)
    requires i < |s|
    ensures Items(s[i..]) == (if s[i].Full? then [s[i].item] else []) + Items(s[i + 1..])
  {
    assert s[i..][1..] == s[i + 1..];
  }

  /** Calls `f` on each stored element from bucket `i` on, stopping at the
      first element it rejects; true when it rejected none. */
  function ScanFrom<T>(s: seq<Bucket<T>>, i: nat, f: T -> bool): (r: bool)
    requires i <= |s|
    ensures r <==> forall x :: x in Items(s[i..]) ==> f(x)
    decreases |s| - i
  {
    if i == |s| then true
    else
      ItemsFrom(s, i);
      if s[i].Full? && !f(s[i].item) then false
      else ScanFrom(s, i + 1, f)
  }

  /** One step of the cursor: the element in the first occupied bucket at or
      after `i`, and the cursor just past that bucket; None at the end. */
  function IterNext<T>(s: seq<Bucket<T>>, i: nat): (r: Option<(T, nat)>)
    ensures r.None? <==> forall p :: i <= p < |s| ==> s[p].Empty?
    ensures r.Some? ==>
      var j := r.value.1;
      && i < j <= |s|
      && s[j - 1].Full? && s[j - 1].item == r.value.0
      && (forall p :: i <= p < j - 1 ==> s[p].Empty?)
    decreases |s| - i
  {
    if i >= |s| then None
    else if s[i].Full? then Some((s[i].item, i + 1))
    else IterNext(s, i + 1)
  }

  /** Everything a caller's loop over the cursor receives, starting from `i`. */
  function Drain<T>(s: seq<Bucket<T>>, i: nat): seq<T>
    decreases |s| - i
  {
    match IterNext(s, i)
    case None => []
    case Some((x, j)) => [x] + Drain(s, j)
  }

  /** Advancing the cursor yields the stored elements in storage order. */
  lemma {:induction false} DrainIsItems<T>(s: seq<Bucket<T>>, i: nat)
    requires i <= |s|
    ensures Drain(s, i) == Items(s[i..])
    decreases |s| - i
  {
    if i < |s| {
      ItemsFrom(s, i);
      if s[i].Empty? {
        assert IterNext(s, i) == IterNext(s, i + 1);
        assert Drain(s, i) == Drain(s, i + 1);
        DrainIsItems(s, i + 1);
      } else {
        DrainIsItems(s, i + 1);
      }
    }
  }
}

=== FILE: wrappers.dfy ===
/** The optional value that stands in for a C pointer that may be NULL. */
module Wrappers {

  datatype Option<+T> = None | Some(value: T)
}
